=== FILE: README.md ===
# Commands: the fast S-expression command interpreter of the AtomSpace

`opencog/persist/sexpr/Commands.cc` holds a fixed-vocabulary interpreter for the
commands a cogserver client sends: `cog-execute-cache!`, `cog-extract!`,
`cog-get-atoms`, `cog-link`, `cog-set-value!`, `define` and the rest. Every
handler decodes its operands from the command text with a `size_t` cursor,
calls the store (an `AtomSpace`) and encodes a reply. The interpreter object
also holds the addressing state. That state is one of two modes:

- Single mode: every command works on the base store.
- Multi mode: a command may name a frame (an `(AtomSpace ...)` expression) and
  work on that frame. `define` installs a frame hierarchy as the top frame.

This project models the interpreter and proves its rules:

- `Interpreter.Commands` is a class with the fields `multiSpace`, `topSpace` and
  `baseSpace`, and one method per handler. The methods thread the cursor step
  by step and build the list replies in loops, as the source does.
- The store is a value: an ordered atom sequence, the value slots at
  (atom, key) and a read-only flag. The class holds the stores it reaches in a
  map keyed by store identity. Two handles to the same store are the same
  identity. An identity missing from the map is an empty, writable frame,
  which the codec has just built. Every store, frames included, is flat: a
  frame does not see the atoms or values of the frames below it.
- The store operations the handlers call (`AtomSpace.AddAtom`,
  `AtomSpace.ExtractAtom` and the rest) are given concrete rules in this
  model. The store engine's own code is not part of this model, so these rules
  are assumptions: what the handlers are proved to do holds for a store that
  follows them.
- The S-expression codec (`Sexpr.Codec`) and what the store engine computes
  opaquely (`AtomSpace.Engine`: the type hierarchy, running a query, which may give null, the float
  arithmetic of `increment_count`, printing a store) are records of functions.
  Each handler is stated for every codec and every engine. Two handlers need
  more of the codec. `cog-link` assumes `Codec.ScansWithin`: `get_next_expr`
  reports a span inside the range it is given. `cog-update-value!` assumes the
  value decodes, because the code dereferences it. What `cog-set-value!` keeps
  of the store is proved under `Codec.AddsAtomsOnly`: `add_atoms` interns the
  atoms a value holds and changes nothing that was already in the store.
- The wall clock `time(0)` is the `now` parameter of `CogExecuteCache`.
- `std::string::npos` is `None` in the cursor functions of `Text`. Where the
  code adds one to npos (`cog_define`), the `size_t` wrap to 0 is modelled.

Each handler method's `ensures` ties its reply and its new state to a
specification function of the old state. The properties of those functions
are proved as lemmas. They cover the following:

- The mode starts Single. The only assignments are `true`, so once the
  interpreter is in Multi mode it stays there.
- How `get_opt_as` resolves its target store.
- The memo rules of `cog-execute-cache!`.
- The replies of the two extraction commands.
- The subtype flag of `cog-get-atoms`, and which store it enumerates.
- The child scan of `cog-link`.
- The guards of `cog-set-tv!` and `cog-update-value!`.

`get_opt_as` returns at once in Single mode. It assigns the flag only on a
path that Multi mode alone reaches, so the assignment changes nothing.
`GetOptAs` therefore promises `multiSpace == old(multiSpace)`, and only
`define` leaves Single mode (`Frames.ModeAfterAllIsSticky`).

## Model

| member | source | states |
|---|---|---|
| Text.FindFirstNotOf | opencog/persist/sexpr/Commands.cc:76 | the first index at or after the cursor that is not in the set, with every index before it in the set; none exactly when the rest of the text is all in the set |
| Text.FindFirstOf | opencog/persist/sexpr/Commands.cc:115 | the first index at or after the cursor that is in the set; none exactly when no later character is in it |
| Text.Find | opencog/persist/sexpr/Commands.cc:123 | the first occurrence of the needle at or after the cursor; none exactly when it occurs nowhere from there |
| Text.CompareEq | opencog/persist/sexpr/Commands.cc:77 | a compare of as many characters as `t` has is equal iff the text at the cursor starts with `t` |
| AtomSpace.AddAtom | opencog/persist/sexpr/Commands.cc:110 | a read-only store returns no handle and is unchanged; otherwise the handle is the atom and it is in the store; only that atom is added, and no value changes |
| AtomSpace.GetAtom | opencog/persist/sexpr/Commands.cc:148 | a lookup finds the atom iff the store holds it |
| AtomSpace.GetValue | opencog/persist/sexpr/Commands.cc:126 | the slot at (atom, key) is present iff it is in the store's value map, with that value |
| AtomSpace.SetValue | opencog/persist/sexpr/Commands.cc:138 | the slot at (atom, key) holds the new value (null clears it); every other slot and the atoms are unchanged |
| AtomSpace.SetTruthValue | opencog/persist/sexpr/Commands.cc:342 | the truth-value slot of the atom holds the new truth value; every other slot, the atoms and the read-only flag are unchanged |
| AtomSpace.IncrementCount | opencog/persist/sexpr/Commands.cc:363 | the slot at (atom, key) holds the engine's increment of its old value by the float vector; every other slot, the atoms and the read-only flag are unchanged |
| AtomSpace.ExtractAtom | opencog/persist/sexpr/Commands.cc:150 | extraction succeeds iff the store is writable, holds the atom, and either the extraction is recursive or no link holds the atom; on failure nothing changes; on success the store keeps exactly the atoms that neither are the atom nor (when recursive) contain it, each surviving atom keeps every value on it, and the read-only flag is kept |
| AtomSpace.HandlesByType | opencog/persist/sexpr/Commands.cc:182-184 | the atoms of the store whose type is the given type or, when subtypes are asked for, a subtype of it |
| AtomSpace.IncomingSet | opencog/persist/sexpr/Commands.cc:220 | the links of the store that hold the atom |
| AtomSpace.IncomingSetByType | opencog/persist/sexpr/Commands.cc:204 | the links of the store of the given type that hold the atom |
| AtomSpace.Clear | opencog/persist/sexpr/Commands.cc:99 | the store keeps no atom and no value |
| Frames.ModeAfter | opencog/persist/sexpr/Commands.cc:79 | one handler never takes Multi back to Single, and every handler but `define` leaves the mode as it was |
| Frames.ModeAfterAll | opencog/persist/sexpr/Commands.cc:392 | a run of handlers started in Multi mode ends in Multi mode |
| Frames.ModeAfterAllIsSticky | opencog/persist/sexpr/Commands.cc:57 | after any run of handlers the mode is Multi iff it was Multi before or the run contains `define` |
| Frames.ResolveOptSpace | opencog/persist/sexpr/Commands.cc:71-85 | in Single mode the target is the base store with the cursor untouched |
| Frames.ResolveInMultiMode | opencog/persist/sexpr/Commands.cc:74-84 | in Multi mode the cursor moves to the first non-blank index; the target is the frame decoded there, rooted at the top frame, iff the text there starts with `(AtomSpace`, and the base store otherwise |
| Frames.DefineCursor | opencog/persist/sexpr/Commands.cc:395-400 | the frame decoder starts at 0 or just after a blank |
| Frames.DefineCursorAfterSymbol | opencog/persist/sexpr/Commands.cc:396-400 | with a symbol followed by a blank, the frame decoder starts one past that first blank |
| Frames.DefineCursorWraps | opencog/persist/sexpr/Commands.cc:397-400 | with no blank after the symbol, npos + 1 wraps and the frame decoder starts at 0 |
| Cache.DecodeMeta | opencog/persist/sexpr/Commands.cc:115-118 | metadata is decoded iff some `(` follows the key |
| Cache.ParseCacheArgs | opencog/persist/sexpr/Commands.cc:108-125 | metadata is present iff some `(` follows the key; a rerun is forced iff metadata is present and `#t` occurs after it |
| Cache.Stamped | opencog/persist/sexpr/Commands.cc:108-122 | after the operands are interned in the base store, the timestamp sits at (query, metadata) and every other slot of every atom is as before; the atoms are exactly the old ones plus query, key and metadata |
| Cache.ExecuteCache | opencog/persist/sexpr/Commands.cc:106-141 | the base store stays writable, its atoms are those after the operands are interned, and every slot other than (query, key) is as it was after interning and timestamping |
| Cache.TimestampOnEveryPath | opencog/persist/sexpr/Commands.cc:115-122 | with metadata other than the key, the timestamp at (query, metadata) survives whether the cache then hits or misses |
| Cache.CacheHit | opencog/persist/sexpr/Commands.cc:123-128 | a held value without a force flag is the reply; nothing is written at (query, key), and no engine is consulted (any other engine gives the same outcome) |
| Cache.CacheMissOrForce | opencog/persist/sexpr/Commands.cc:130-140 | on a miss or a force, execution is preferred to evaluation and its result, null included, becomes the slot at (query, key) and is encoded as the reply; a null result clears the slot; a query that does neither gets `#f` and the slot keeps its old content |
| Cache.SecondCallRepeatsReply | opencog/persist/sexpr/Commands.cc:123-138 | once the first command leaves a value at (query, key), an unforced repeat answers the first reply again, whatever the engine would now compute |
| Cache.EmptySlotRunsAgain | opencog/persist/sexpr/Commands.cc:126-140 | when the first command leaves (query, key) empty (a null result, or a query that neither executes nor evaluates), a repeat runs the query again and replies its new result, or `#f` |
| Cache.MetaEqualToKeyAnswersTimestamp | opencog/persist/sexpr/Commands.cc:119-125 | when the metadata atom is the key, the lookup finds the timestamp just written, so without a force flag the reply is the encoded timestamp |
| Handlers.ExtractOutcome | opencog/persist/sexpr/Commands.cc:145-163 | an absent atom gives `#t` and no change; a present atom gives `#t` iff extract_atom succeeds, `#f` otherwise |
| Handlers.ExtractAnswersFalseOnlyWhenRefused | opencog/persist/sexpr/Commands.cc:148-151 | under the extraction rule this model assumes of the store, `#f` iff the atom is held and the store is read-only or, without recursion, a link holds it; a recursive extraction from a writable store always answers `#t` |
| Handlers.ExtractTwiceAnswersTrue | opencog/persist/sexpr/Commands.cc:148-150 | after a `#t`, the same extraction answers `#t` again and changes nothing |
| Handlers.SubtypesFlagIff | opencog/persist/sexpr/Commands.cc:172-175 | the subtype flag is set iff the first character after the type other than `)` or a blank does not start `#f` |
| Handlers.SubtypesFlag | opencog/persist/sexpr/Commands.cc:172-175 | with only `)` and blanks after the type, subtypes are not asked for; when they are, some character after the type other than `)` or a blank does not start `#f` |
| Handlers.ScanChildren | opencog/persist/sexpr/Commands.cc:269-282 | the child scan ends; with no child the cursor is unchanged, otherwise it ends inside the text past the type |
| Handlers.ChildrenComeFromSpans | opencog/persist/sexpr/Commands.cc:273-282 | every child collected is the atom decoded from a non-empty span get_next_expr reports at a point of the range that is not a `)` |
| Handlers.ScanEndsAtLastChild | opencog/persist/sexpr/Commands.cc:275-281 | the cursor the scan ends at is the right edge of the span the last child was decoded from |
| Handlers.SetTvStore | opencog/persist/sexpr/Commands.cc:340-342 | a read-only store is left as it was; otherwise exactly the atom is added, its truth-value slot holds the truth value, and no other slot of any atom changes |
| Handlers.InternPair | opencog/persist/sexpr/Commands.cc:380-381 | the atoms become exactly the old ones plus atom and key, and no value changes |
| Handlers.UpdateValueStore | opencog/persist/sexpr/Commands.cc:356-363 | atom and key are interned whatever the value; a value that is not a FloatValue changes no slot, and a FloatValue adds into the slot at (atom, key) and changes no other slot |
| Handlers.SetAll | opencog/persist/sexpr/Commands.cc:323 | the last pair for a key decides its slot; keys no pair names keep their slot; no other atom's slot changes; the atoms are unchanged |
| Handlers.SetAllLastPairWins | opencog/persist/sexpr/Commands.cc:323 | for every key, the last pair that names it decides its slot, whatever earlier pairs wrote there |
| Interpreter.SetValueStore | opencog/persist/sexpr/Commands.cc:302-304 | a null value clears the slot at (atom, key); otherwise the slot holds the value after its atoms are interned; when add_atoms only adds (`Codec.AddsAtomsOnly`), the atoms already held stay, the read-only flag is kept and every other slot of those atoms is unchanged |
| Interpreter.Commands.constructor | opencog/persist/sexpr/Commands.cc:55-58 | the interpreter starts in Single mode with no top frame |
| Interpreter.Commands.SetBaseSpace | opencog/persist/sexpr/Commands.cc:64-67 | the base store is the one given |
| Interpreter.Commands.AddAtomIn | opencog/persist/sexpr/Commands.cc:218 | add_atom on one store: the handle and that store's new content are AddAtom's, and no other store changes |
| Interpreter.Commands.EnumerationSpace | opencog/persist/sexpr/Commands.cc:181-184 | cog-get-atoms enumerates the base store or, only in Multi mode, the top frame; the base store whenever Single mode is on or no top frame is set |
| Interpreter.Commands.EnumerationFollowsTopFrame | opencog/persist/sexpr/Commands.cc:181-184 | since a top frame is only set together with Multi mode, cog-get-atoms enumerates the top frame whenever one is defined and the base store otherwise |
| Interpreter.Commands.GetOptAs | opencog/persist/sexpr/Commands.cc:71-85 | the store and cursor returned are the resolution `ResolveOptSpace` gives, and the mode does not change |
| Interpreter.Commands.EncodeList | opencog/persist/sexpr/Commands.cc:185-188 | the reply is `(`, the encodings of the atoms in order, then `)` |
| Interpreter.Commands.CogAtomspace | opencog/persist/sexpr/Commands.cc:89-93 | `()` without a top frame, the printed top frame otherwise |
| Interpreter.Commands.CogAtomspaceClear | opencog/persist/sexpr/Commands.cc:97-101 | the base store is emptied and the reply is `#t` |
| Interpreter.Commands.CogExecuteCache | opencog/persist/sexpr/Commands.cc:106-141 | reply and base store are those of `ExecuteCache` on the old base store; no other store changes |
| Interpreter.Commands.CogExtract | opencog/persist/sexpr/Commands.cc:145-152 | reply and base store are those of `ExtractOutcome` without recursion |
| Interpreter.Commands.CogExtractRecursive | opencog/persist/sexpr/Commands.cc:156-163 | reply and base store are those of `ExtractOutcome` with recursion |
| Interpreter.Commands.CogGetAtoms | opencog/persist/sexpr/Commands.cc:167-189 | the reply lists the atoms of the type (with subtypes as the flag says) from the top frame iff Multi mode is on and a top frame is set, and from the base store otherwise |
| Interpreter.Commands.CogIncomingByType | opencog/persist/sexpr/Commands.cc:193-208 | the atom is interned in the resolved store and the reply lists its incoming links of the type |
| Interpreter.Commands.CogIncomingSet | opencog/persist/sexpr/Commands.cc:213-224 | the atom is interned in the resolved store and the reply lists its incoming links |
| Interpreter.Commands.CogNode | opencog/persist/sexpr/Commands.cc:248-261 | the node is looked up, not added, in the store resolved after its name; the reply is its encoding if held and `()` otherwise |
| Interpreter.Commands.CollectChildren | opencog/persist/sexpr/Commands.cc:273-282 | the children collected and the cursor left behind are exactly those of the child scan `ScanChildren` |
| Interpreter.Commands.CogLink | opencog/persist/sexpr/Commands.cc:265-288 | the children are those of the scan, the store is resolved after the last child, and the reply is the link's encoding if held and `()` otherwise |
| Interpreter.Commands.CogSetValue | opencog/persist/sexpr/Commands.cc:292-306 | atom and key are interned in the resolved store, and the store becomes `SetValueStore` of that: the slot is set (or cleared), and under `Codec.AddsAtomsOnly` no other slot of a held atom changes; the reply is always `()` |
| Interpreter.Commands.CogSetValues | opencog/persist/sexpr/Commands.cc:311-326 | in Single mode the atom is interned in the base store and the pairs applied; the reply is `()` |
| Interpreter.Commands.CogSetTv | opencog/persist/sexpr/Commands.cc:331-344 | the atom is added to the resolved store; a null handle (a read-only store) leaves every store as it was; otherwise its truth value is set; the reply is `()` |
| Interpreter.Commands.CogUpdateValue | opencog/persist/sexpr/Commands.cc:348-369 | atom and key are interned before the type guard; only a FloatValue changes a slot; the reply is `()` |
| Interpreter.Commands.CogValue | opencog/persist/sexpr/Commands.cc:373-385 | atom and key are interned in the resolved store and the reply encodes the value at (atom, key), null included |
| Interpreter.Commands.CogDefine | opencog/persist/sexpr/Commands.cc:390-411 | Multi mode, and the top frame is the frame decoded one past the first blank after the symbol, rooted at the base store; the reply is `()` |
| Interpreter.Commands.CogPing | opencog/persist/sexpr/Commands.cc:415-418 | the reply is `()` |

## Left out

- The store engine's own code is not part of this model. Deduplication inside `add_atom`, the incoming-set index, the type hierarchy behind `isA`, `to_string` and the cost of each operation are left out. In their place the model states rules for each store operation, and these rules are assumptions. They include that `extract_atom` succeeds iff the store is writable, holds the atom, and either the extraction is recursive or no link holds the atom.
- Frames do not see the atoms or values of the frames below them: every store in the model is flat, and a frame the codec has just built reads as empty. So in Multi mode, a command on a frame (for example `cog-get-atoms` after `define`) does not find what lives only in the base store.
- The enumeration order of `get_handles_by_type` and of the incoming sets is left out. The model fixes it as store order, and the contracts speak of membership.
- The codec grammar is left opaque. This covers `decode_atom`, `decode_type`, `decode_value`, `decode_frame`, `decode_slist`, `get_node_name`, `get_next_expr`, `add_atoms`, `encode_atom` and `encode_value`. Their results and cursors are uninterpreted. `Sexpr.cc` is not part of this model.
- Interpreter.SetValueStore states what survives in the store only under `Codec.AddsAtomsOnly`. `add_atoms` is opaque, so without that assumption nothing is known about the store it returns.
- The frame map `_space_map`, which memoises frame decoding inside `decode_frame`, is left out.
- Query semantics are left out. `execute` and `evaluate` are opaque functions of the query and the base store, and any store change they make is not modelled.
- `time(0)` is the parameter `now`.
- The float arithmetic of `increment_count` is opaque. Only the type guard and the fact of the call are modelled. `TruthValueCast` is the identity.
- Multi mode with nothing but blanks after the cursor makes `std::string::compare` throw `std::out_of_range`. This is a precondition (`Frames.CanResolve`), not a modelled exception.
- Interpreter.Commands.CogIncomingSet requires a writable target store. On a read-only store `add_atom` returns null, and the handler dereferences it.
- Interpreter.Commands.CogIncomingByType requires a writable target store. On a read-only store `add_atom` returns null, and the handler dereferences it.
- Interpreter.Commands.CogValue requires a writable target store. On a read-only store `add_atom` returns null, and the handler dereferences it.
- Interpreter.Commands.CogSetValue requires a writable target store. On a read-only store `add_atom` returns null, and the handler dereferences it.
- Interpreter.Commands.CogExecuteCache requires a writable target store. On a read-only store `add_atom` returns null, and the handler dereferences it.
- Interpreter.Commands.CogUpdateValue requires a decodable value, because the value is dereferenced. It requires a writable store only for a FloatValue.
- Interpreter.Commands.CogSetValues is weaker than the source in Multi mode. There it states only the reply and that no tracked store changes. The key/value list lands on the decoded atom, which belongs to no store this model tracks. In Single mode it requires a writable base store, because the interned handle is dereferenced.
- `cog_keys_alist` is left out. Its reply depends on the order of `getKeys`, which the store engine does not expose.
- `cog_version` is left out. It replies with a build-time version string.
- The dispatcher that maps command names to handlers is not in this file.
- Concurrency is left out. The interpreter's fields are shared with no locking, and the model is sequential.

=== FILE: atomspace.dfy ===
/** The hypergraph store the interpreter drives. The store engine is not
    part of this model; this module assumes for it the few observable rules
    the command handlers rely on: interning, lookup, extraction, enumeration by
    type, the incoming set and the (atom, key) value slots. What the engine
    computes opaquely (the type hierarchy, running a query, the float
    arithmetic of increment_count, printing a store) is carried by the
    `Engine` record of functions. */
module AtomSpace {
  import opened Text

  type TypeName = string

  /** Identity of one store object (the base store or a frame). */
  type SpaceId = nat

  /** Atoms are content-addressed: two atoms with equal structure are the
      same atom. */
  datatype Atom =
    | Node(ty: TypeName, name: string)
    | Link(ty: TypeName, outgoing: seq<Atom>)

  /** A value; `FloatValue` stands for every value whose type is a
      FLOAT_VALUE (truth values included), `OtherValue` for all others. */
  datatype Value =
    | FloatValue(floatType: TypeName, numbers: seq<real>)
    | OtherValue(valueType: TypeName, payload: string)

  /** The key under which a store keeps an atom's truth value. */
  const TruthKey: Atom := Node("PredicateNode", "*-TruthValueKey-*")

  /** A store: its atoms in enumeration order, the value slots at
      (atom, key), and whether it refuses insertions. */
  datatype Store = Store(atoms: seq<Atom>, values: map<(Atom, Atom), Value>, readOnly: bool)

  const EmptyStore: Store := Store([], map[], false)

  /** What the engine computes and this model leaves opaque. */
  datatype Engine = Engine(
    isA: (TypeName, TypeName) -> bool,
    isExecutable: Atom -> bool,
    isEvaluatable: Atom -> bool,
    execute: (Atom, Store) -> Option<Value>,
    evaluate: (Atom, Store) -> Option<Value>,
    incrementCount: (Option<Value>, seq<real>) -> Value,
    describe: (SpaceId, Store) -> string)

  /** The elements of `s` that satisfy `p`, in their original order. */
  function Filter<T(!new)>(s: seq<T>, p: T -> bool): (r: seq<T>)
    ensures |r| <= |s|
    ensures forall x :: x in r <==> x in s && p(x)
  {
    if s == [] then []
    else (if p(s[0]) then [s[0]] else []) + Filter(s[1..], p)
  }

  datatype Added = Added(store: Store, handle: Option<Atom>)

  /** add_atom: intern `h`; a read-only store answers with no handle. */
  function AddAtom(s: Store, h: Atom): (r: Added)
    ensures r.handle.None? <==> s.readOnly
    ensures s.readOnly ==> r.store == s
    ensures r.handle.Some? ==> r.handle.value == h && h in r.store.atoms
    ensures r.store.values == s.values && r.store.readOnly == s.readOnly
    ensures forall a :: a in r.store.atoms <==> a in s.atoms || (a == h && !s.readOnly)
  {
    if s.readOnly then Added(s, None)
    else if h in s.atoms then Added(s, Some(h))
    else Added(s.(atoms := s.atoms + [h]), Some(h))
  }

  /** get_atom: the stored atom equal to `h`, if any. */
  function GetAtom(s: Store, h: Atom): (r: Option<Atom>)
    ensures r.Some? <==> h in s.atoms
    ensures r.Some? ==> r.value == h
  {
    if h in s.atoms then Some(h) else None
  }

  function GetValue(s: Store, h: Atom, key: Atom): (r: Option<Value>)
    ensures r.Some? <==> (h, key) in s.values
    ensures r.Some? ==> r.value == s.values[(h, key)]
  {
    if (h, key) in s.values then Some(s.values[(h, key)]) else None
  }

  /** set_value: replace the slot at (h, key); a null value clears it. */
  function SetValue(s: Store, h: Atom, key: Atom, v: Option<Value>): (r: Store)
    ensures GetValue(r, h, key) == v
    ensures forall p :: p != (h, key) ==> (p in r.values <==> p in s.values)
    ensures forall p :: p != (h, key) && p in s.values ==> r.values[p] == s.values[p]
    ensures r.atoms == s.atoms && r.readOnly == s.readOnly
  {
    match v
    case Some(x) => s.(values := s.values[(h, key) := x])
    case None => s.(values := s.values - {(h, key)})
  }

  /** set_truthvalue: the truth value lives in the slot at (h, TruthKey). */
  function SetTruthValue(s: Store, h: Atom, tv: Option<Value>): (r: Store)
    ensures GetValue(r, h, TruthKey) == tv
    ensures forall a, k :: (a, k) != (h, TruthKey) ==> GetValue(r, a, k) == GetValue(s, a, k)
    ensures r.atoms == s.atoms && r.readOnly == s.readOnly
  {
    SetValue(s, h, TruthKey, tv)
  }

  /** increment_count: the slot at (h, key) receives the engine's sum of its
      old contents and `delta`. */
  function IncrementCount(en: Engine, s: Store, h: Atom, key: Atom, delta: seq<real>): (r: Store)
    ensures GetValue(r, h, key) == Some(en.incrementCount(GetValue(s, h, key), delta))
    ensures forall a, k :: (a, k) != (h, key) ==> GetValue(r, a, k) == GetValue(s, a, k)
    ensures r.atoms == s.atoms && r.readOnly == s.readOnly
  {
    SetValue(s, h, key, Some(en.incrementCount(GetValue(s, h, key), delta)))
  }

  /** `r` only adds to `s`: every atom of `s` is still there with the same
      values on it, and the read-only flag is kept. */
  ghost predicate Extends(s: Store, r: Store)
  {
    && r.readOnly == s.readOnly
    && (forall a :: a in s.atoms ==> a in r.atoms)
    && (forall a, k :: a in s.atoms ==> GetValue(r, a, k) == GetValue(s, a, k))
  }

  /** True when `h` occurs somewhere below the link `a`. */
  predicate Mentions(a: Atom, h: Atom)
    decreases a
  {
    match a
    case Node(_, _) => false
    case Link(_, out) => exists c :: c in out && (c == h || Mentions(c, h))
  }

  /** `a` is a link of the store that holds `h` directly. */
  predicate IsIncomingOf(a: Atom, h: Atom)
  {
    a.Link? && h in a.outgoing
  }

  predicate HasIncoming(s: Store, h: Atom)
  {
    exists a :: a in s.atoms && IsIncomingOf(a, h)
  }

  /** The atoms a (possibly recursive) extraction of `h` removes. */
  predicate Doomed(a: Atom, h: Atom, recursive: bool)
  {
    a == h || (recursive && Mentions(a, h))
  }

  datatype Extracted = Extracted(store: Store, ok: bool)

  /** extract_atom: remove `h` and the values on it. Without `recursive`
      it refuses while some link still holds `h`; with it, every atom that
      holds `h` at any depth goes too. */
  function ExtractAtom(s: Store, h: Atom, recursive: bool): (r: Extracted)
    ensures r.ok <==> !s.readOnly && h in s.atoms && (recursive || !HasIncoming(s, h))
    ensures !r.ok ==> r.store == s
    ensures r.ok ==> h !in r.store.atoms
    ensures r.ok ==> forall a :: a in r.store.atoms <==> a in s.atoms && !Doomed(a, h, recursive)
    ensures r.ok ==> forall a, k :: a in r.store.atoms ==> GetValue(r.store, a, k) == GetValue(s, a, k)
    ensures r.store.readOnly == s.readOnly
  {
    if s.readOnly || h !in s.atoms || (!recursive && HasIncoming(s, h)) then Extracted(s, false)
    else
      var kept := Filter(s.atoms, a => !Doomed(a, h, recursive));
      var vals := map p | p in s.values && !Doomed(p.0, h, recursive) :: s.values[p];
      Extracted(Store(kept, vals, s.readOnly), true)
  }

  /** get_handles_by_type: the atoms of type `t`, and with `subtypes` also
      those of every type the engine places below `t`. */
  function HandlesByType(s: Store, t: TypeName, subtypes: bool, isA: (TypeName, TypeName) -> bool): (r: seq<Atom>)
    ensures forall a :: a in r <==> a in s.atoms && (a.ty == t || (subtypes && isA(a.ty, t)))
  {
    Filter(s.atoms, (a: Atom) => a.ty == t || (subtypes && isA(a.ty, t)))
  }

  /** getIncomingSet: the links of the store that hold `h` directly. */
  function IncomingSet(s: Store, h: Atom): (r: seq<Atom>)
    ensures forall a :: a in r <==> a in s.atoms && IsIncomingOf(a, h)
  {
    Filter(s.atoms, a => IsIncomingOf(a, h))
  }

  /** getIncomingSetByType: the part of the incoming set of type `t`. */
  function IncomingSetByType(s: Store, h: Atom, t: TypeName): (r: seq<Atom>)
    ensures forall a :: a in r <==> a in s.atoms && IsIncomingOf(a, h) && a.ty == t
  {
    Filter(s.atoms, (a: Atom) => IsIncomingOf(a, h) && a.ty == t)
  }

  /** clear: the store keeps no atom and no value. */
  function Clear(s: Store): (r: Store)
    ensures r.atoms == [] && r.values == map[] && r.readOnly == s.readOnly
  {
    s.(atoms := [], values := map[])
  }
}

=== FILE: cache.dfy ===
/** cog-execute-cache!: the value slot at (query, key) of the base store
    serves as a memo of the query's result. An optional metadata atom
    after the key gets a timestamp at (query, metadata), and a `#t` after
    the metadata forces the query to be run again. Every store operation
    here is on the base store. */
module Cache {
  import opened Text
  import opened AtomSpace
  import opened Sexpr
  import opened Handlers

  /** The operands of one cache command. */
  datatype CacheArgs = CacheArgs(query: Atom, key: Atom, meta: Option<Atom>, force: bool)

  /** The cursor just past the key: the key is decoded one character past
      the end of the query. */
  function KeyEnd(cx: Codec, cmd: string): nat
  {
    cx.decodeAtom(cmd, cx.decodeAtom(cmd, 0).next + 1).next
  }

  /** The metadata atom, decoded from the first `(` after the key. */
  function DecodeMeta(cx: Codec, cmd: string): (m: Option<Decoded<Atom>>)
    ensures m.Some? <==> exists i :: KeyEnd(cx, cmd) <= i < |cmd| && cmd[i] == '('
  {
    var paren := FindFirstOf(cmd, {'('}, KeyEnd(cx, cmd));
    if paren.None? then None else Some(cx.decodeAtom(cmd, paren.value))
  }

  /** The operands: metadata is present iff some `(` follows the key, and
      recomputation is forced iff `#t` occurs after the metadata. */
  function ParseCacheArgs(cx: Codec, cmd: string): (a: CacheArgs)
    ensures a.meta.Some? <==> exists i :: KeyEnd(cx, cmd) <= i < |cmd| && cmd[i] == '('
    ensures a.force <==> (DecodeMeta(cx, cmd).Some? &&
      exists i :: DecodeMeta(cx, cmd).value.next <= i <= |cmd| && HasPrefixAt(cmd, i, "#t"))
  {
    var q := cx.decodeAtom(cmd, 0);
    var k := cx.decodeAtom(cmd, q.next + 1);
    match DecodeMeta(cx, cmd)
    case None => CacheArgs(q.value, k.value, None, false)
    case Some(m) =>
      var f := Find(cmd, "#t", m.next);
      assert f.Some? ==> m.next <= f.value <= |cmd|;
      CacheArgs(q.value, k.value, Some(m.value), f.Some?)
  }

  /** time(0) stored as a one-element float vector. */
  function TimeStamp(now: int): Value
  {
    FloatValue("FloatValue", [now as real])
  }

  /** The base store after the operands are interned and, when metadata
      is present, the timestamp is written: the state the cache lookup
      sees. */
  function Stamped(cx: Codec, base: Store, cmd: string, now: int): (s: Store)
    requires !base.readOnly
    ensures !s.readOnly
    ensures var a := ParseCacheArgs(cx, cmd);
      a.meta.Some? ==> GetValue(s, a.query, a.meta.value) == Some(TimeStamp(now))
    ensures var a := ParseCacheArgs(cx, cmd);
      forall x, k :: (a.meta.None? || (x, k) != (a.query, a.meta.value)) ==> GetValue(s, x, k) == GetValue(base, x, k)
    ensures var a := ParseCacheArgs(cx, cmd);
      forall x :: x in s.atoms <==> x in base.atoms || x == a.query || x == a.key || a.meta == Some(x)
  {
    var a := ParseCacheArgs(cx, cmd);
    var s1 := AddAtom(AddAtom(base, a.query).store, a.key).store;
    match a.meta
    case None => s1
    case Some(m) => SetValue(AddAtom(s1, m).store, a.query, m, Some(TimeStamp(now)))
  }

  /** The whole command. A read-only base store would make add_atom return
      null, which the command dereferences; that is excluded. */
  function ExecuteCache(cx: Codec, en: Engine, base: Store, cmd: string, now: int): (o: Outcome)
    requires !base.readOnly
    ensures !o.store.readOnly
    ensures o.store.atoms == Stamped(cx, base, cmd, now).atoms
    ensures var a := ParseCacheArgs(cx, cmd);
      forall x, k :: (x, k) != (a.query, a.key) ==> GetValue(o.store, x, k) == GetValue(Stamped(cx, base, cmd, now), x, k)
  {
    var a := ParseCacheArgs(cx, cmd);
    var s := Stamped(cx, base, cmd, now);
    var cached := GetValue(s, a.query, a.key);
    if cached.Some? && !a.force then Outcome(cx.encodeValue(cached), s)
    else if en.isExecutable(a.query) then
      var r := en.execute(a.query, s);
      Outcome(cx.encodeValue(r), SetValue(s, a.query, a.key, r))
    else if en.isEvaluatable(a.query) then
      var r := en.evaluate(a.query, s);
      Outcome(cx.encodeValue(r), SetValue(s, a.query, a.key, r))
    else Outcome("#f", s)
  }

  /** The timestamp at (query, metadata) is written whether the cache then
      hits or misses. */
  lemma TimestampOnEveryPath(cx: Codec, en: Engine, base: Store, cmd: string, now: int)
    requires !base.readOnly
    requires ParseCacheArgs(cx, cmd).meta.Some?
    requires ParseCacheArgs(cx, cmd).meta.value != ParseCacheArgs(cx, cmd).key
    ensures var a := ParseCacheArgs(cx, cmd);
      GetValue(ExecuteCache(cx, en, base, cmd, now).store, a.query, a.meta.value) == Some(TimeStamp(now))
  {
  }

  /** A hit: (query, key) already holds `v` and nothing forces a rerun. The
      reply is the encoding of `v`, the slot keeps `v`, and the engine is
      never consulted: any other engine gives the same outcome. */
  lemma CacheHit(cx: Codec, en: Engine, other: Engine, base: Store, cmd: string, now: int, v: Value)
    requires !base.readOnly
    requires var a := ParseCacheArgs(cx, cmd);
      GetValue(base, a.query, a.key) == Some(v) && !a.force && a.meta != Some(a.key)
    ensures var a := ParseCacheArgs(cx, cmd);
      var o := ExecuteCache(cx, en, base, cmd, now);
      && o.reply == cx.encodeValue(Some(v))
      && o.store == Stamped(cx, base, cmd, now)
      && GetValue(o.store, a.query, a.key) == Some(v)
      && ExecuteCache(cx, other, base, cmd, now) == o
  {
  }

  /** A miss, or a forced rerun: an executable query is executed, a query
      that only evaluates is evaluated, and the result replaces the slot at
      (query, key) and is the reply; a null result clears the slot and
      replies the encoding of null. A query that does neither gets `#f` and
      the slot keeps what it had. */
  lemma CacheMissOrForce(cx: Codec, en: Engine, base: Store, cmd: string, now: int)
    requires !base.readOnly
    requires var a := ParseCacheArgs(cx, cmd);
      a.force || GetValue(Stamped(cx, base, cmd, now), a.query, a.key).None?
    ensures var a := ParseCacheArgs(cx, cmd);
      var s := Stamped(cx, base, cmd, now);
      var o := ExecuteCache(cx, en, base, cmd, now);
      if en.isExecutable(a.query) then
        && GetValue(o.store, a.query, a.key) == en.execute(a.query, s)
        && o.reply == cx.encodeValue(en.execute(a.query, s))
      else if en.isEvaluatable(a.query) then
        && GetValue(o.store, a.query, a.key) == en.evaluate(a.query, s)
        && o.reply == cx.encodeValue(en.evaluate(a.query, s))
      else
        && o.reply == "#f"
        && o.store == s
        && GetValue(o.store, a.query, a.key) == GetValue(s, a.query, a.key)
  {
  }

  /** Once the first command leaves a value at (query, key), repeating it
      without a force flag returns the first reply again, whatever the
      engine would compute the second time and whenever it runs. */
  lemma SecondCallRepeatsReply(cx: Codec, en: Engine, later: Engine,
                                base: Store, cmd: string, now: int, now2: int)
    requires !base.readOnly
    requires var a := ParseCacheArgs(cx, cmd); !a.force && a.meta != Some(a.key)
    requires var a := ParseCacheArgs(cx, cmd);
      GetValue(ExecuteCache(cx, en, base, cmd, now).store, a.query, a.key).Some?
    ensures var o := ExecuteCache(cx, en, base, cmd, now);
      ExecuteCache(cx, later, o.store, cmd, now2).reply == o.reply
  {
  }

  /** When the first command leaves (query, key) empty (the query gave a
      null result, or could be neither executed nor evaluated), nothing is
      memoised: an unforced repeat runs the query again on the then current
      store and replies what that run gives. */
  lemma EmptySlotRunsAgain(cx: Codec, en: Engine, later: Engine,
                           base: Store, cmd: string, now: int, now2: int)
    requires !base.readOnly
    requires var a := ParseCacheArgs(cx, cmd); a.meta != Some(a.key)
    requires var a := ParseCacheArgs(cx, cmd);
      GetValue(ExecuteCache(cx, en, base, cmd, now).store, a.query, a.key).None?
    ensures var a := ParseCacheArgs(cx, cmd);
      var s2 := Stamped(cx, ExecuteCache(cx, en, base, cmd, now).store, cmd, now2);
      var o2 := ExecuteCache(cx, later, ExecuteCache(cx, en, base, cmd, now).store, cmd, now2);
      && (later.isExecutable(a.query) ==> o2.reply == cx.encodeValue(later.execute(a.query, s2)))
      && (!later.isExecutable(a.query) && later.isEvaluatable(a.query) ==>
            o2.reply == cx.encodeValue(later.evaluate(a.query, s2)))
      && (!later.isExecutable(a.query) && !later.isEvaluatable(a.query) ==> o2.reply == "#f")
  {
  }

  /** When the metadata atom is the key itself, the timestamp written first
      is what the lookup finds: without a force flag the reply is the
      encoded timestamp and the query never runs. */
  lemma MetaEqualToKeyAnswersTimestamp(cx: Codec, en: Engine, base: Store, cmd: string, now: int)
    requires !base.readOnly
    requires var a := ParseCacheArgs(cx, cmd); a.meta == Some(a.key) && !a.force
    ensures ExecuteCache(cx, en, base, cmd, now).reply == cx.encodeValue(Some(TimeStamp(now)))
  {
  }
}

=== FILE: frames.dfy ===
/** The addressing mode and the resolution of a command's optional store
    argument. The mode is Single (`false`) or Multi (`true`); it starts
    Single. */
module Frames {
  import opened Text
  import opened AtomSpace
  import opened Sexpr

  /** The command handlers of the interpreter. */
  datatype Handler =
    | AtomspaceCmd | AtomspaceClearCmd | ExecuteCacheCmd | ExtractCmd | ExtractRecursiveCmd
    | GetAtomsCmd | IncomingByTypeCmd | IncomingSetCmd | NodeCmd | LinkCmd
    | SetValueCmd | SetValuesCmd | SetTvCmd | UpdateValueCmd | ValueCmd | DefineCmd | PingCmd

  /** The mode after one handler has run in mode `multi`. Only the
      frame-definition handler assigns the flag on every path; resolving
      an optional store argument assigns it only when it is already set. */
  function ModeAfter(h: Handler, multi: bool): (r: bool)
    ensures multi ==> r
    ensures h != DefineCmd ==> r == multi
  {
    if h == DefineCmd then true else multi
  }

  /** The mode after a run of handlers, in order. */
  function ModeAfterAll(hs: seq<Handler>, multi: bool): (r: bool)
    ensures multi ==> r
  {
    if hs == [] then multi else ModeAfterAll(hs[1..], ModeAfter(hs[0], multi))
  }

  /** The mode after any run of handlers is Multi exactly when it was Multi
      before or the run defines a frame: no handler returns the interpreter
      to Single, and nothing but a frame definition leaves Single. */
  lemma {:induction false} ModeAfterAllIsSticky(hs: seq<Handler>, multi: bool)
    ensures ModeAfterAll(hs, multi) == (multi || DefineCmd in hs)
  {
    if hs != [] {
      ModeAfterAllIsSticky(hs[1..], ModeAfter(hs[0], multi));
      assert hs == [hs[0]] + hs[1..];
    }
  }

  /** The ten characters that open an embedded frame reference. */
  const FrameTag: string := "(AtomSpace"

  /** A resolved target store and the cursor after resolution. */
  datatype Target = Target(space: SpaceId, pos: nat)

  /** Multi mode needs a non-blank character at or after the cursor, since
      the library compare throws on an npos cursor. */
  predicate CanResolve(multi: bool, cmd: string, pos: nat)
  {
    multi ==> FindFirstNotOf(cmd, Whitespace, pos).Some?
  }

  /** get_opt_as: in Single mode the base store, cursor untouched. In Multi
      mode the cursor moves to the first non-blank character; a frame
      reference there is decoded, rooted at the top frame, and anything
      else falls back to the base store. */
  function ResolveOptSpace(multi: bool, top: Option<SpaceId>, base: SpaceId,
                           cx: Codec, cmd: string, pos: nat): (t: Target)
    requires CanResolve(multi, cmd, pos)
    ensures !multi ==> t == Target(base, pos)
  {
    if !multi then Target(base, pos)
    else
      var p := FindFirstNotOf(cmd, Whitespace, pos).value;
      if CompareEq(cmd, p, 10, FrameTag) then
        var f := cx.decodeFrame(top, cmd, p);
        Target(f.value, f.next)
      else Target(base, p)
  }

  /** In Multi mode, with `p` the first non-blank index at or after the
      cursor: a frame reference at `p` yields the decoded frame (rooted at
      the top frame), anything else yields the base store with the cursor
      at `p`. */
  lemma ResolveInMultiMode(top: Option<SpaceId>, base: SpaceId, cx: Codec,
                           cmd: string, pos: nat, p: nat)
    requires pos <= p < |cmd| && cmd[p] !in Whitespace
    requires forall i :: pos <= i < p ==> cmd[i] in Whitespace
    ensures CanResolve(true, cmd, pos)
    ensures HasPrefixAt(cmd, p, FrameTag) ==>
      ResolveOptSpace(true, top, base, cx, cmd, pos)
        == Target(cx.decodeFrame(top, cmd, p).value, cx.decodeFrame(top, cmd, p).next)
    ensures !HasPrefixAt(cmd, p, FrameTag) ==>
      ResolveOptSpace(true, top, base, cx, cmd, pos) == Target(base, p)
  {
  }

  /** The cursor cog_define hands to the frame decoder: one past the first
      blank after the symbol. When no blank follows the symbol, npos + 1
      wraps to 0 in size_t arithmetic. */
  function DefineCursor(cmd: string): (p: nat)
    ensures p == 0 || (p <= |cmd| && cmd[p - 1] in Whitespace)
  {
    var start := FindFirstNotOf(cmd, Whitespace, 0);
    var epos := if start.None? then None else FindFirstOf(cmd, Whitespace, start.value);
    if epos.None? then 0 else epos.value + 1
  }

  /** With the symbol occupying [s, e) and `e` the first blank after it,
      the frame is decoded from e + 1. */
  lemma DefineCursorAfterSymbol(cmd: string, s: nat, e: nat)
    requires s < e < |cmd|
    requires forall i :: 0 <= i < s ==> cmd[i] in Whitespace
    requires forall i :: s <= i < e ==> cmd[i] !in Whitespace
    requires cmd[e] in Whitespace
    ensures DefineCursor(cmd) == e + 1
  {
    assert cmd[s] !in Whitespace;
    assert FindFirstNotOf(cmd, Whitespace, 0) == Some(s);
    assert FindFirstOf(cmd, Whitespace, s) == Some(e);
  }

  /** When no blank follows the symbol, the decoder starts at index 0. */
  lemma DefineCursorWraps(cmd: string, s: nat)
    requires s <= |cmd|
    requires forall i :: 0 <= i < s ==> cmd[i] in Whitespace
    requires forall i :: s <= i < |cmd| ==> cmd[i] !in Whitespace
    ensures DefineCursor(cmd) == 0
  {
  }
}

=== FILE: handlers.dfy ===
/** The reply and guard rules of the individual command handlers, stated
    over store values: extraction, the subtype flag of cog-get-atoms, the
    child scan of cog-link, the read-only short-circuit of cog-set-tv!, the
    float guard of cog-update-value!, and the list replies. */
module Handlers {
  import opened Text
  import opened AtomSpace
  import opened Sexpr

  /** A reply and the store the command leaves behind. */
  datatype Outcome = Outcome(reply: string, store: Store)

  /** cog-extract! (`recursive` false) and cog-extract-recursive! (true):
      an atom the base store does not hold gives `#t` and no change; a
      held atom gives `#t` exactly when extract_atom succeeds, `#f`
      otherwise. */
  function ExtractOutcome(base: Store, h: Atom, recursive: bool): (o: Outcome)
    ensures h !in base.atoms ==> o == Outcome("#t", base)
    ensures h in base.atoms ==> (o.reply == "#t" <==> ExtractAtom(base, h, recursive).ok)
    ensures o.reply == "#t" || o.reply == "#f"
    ensures o.store == ExtractAtom(base, h, recursive).store
  {
    match GetAtom(base, h)
    case None => Outcome("#t", base)
    case Some(a) =>
      var e := ExtractAtom(base, a, recursive);
      Outcome(if e.ok then "#t" else "#f", e.store)
  }

  /** Under the extraction rule `AtomSpace.ExtractAtom` assumes of the
      store: `#f` comes only from a held atom in a read-only store, or,
      without recursion, from a held atom that some link still holds, and a
      recursive extraction from a writable store always answers `#t`. */
  lemma ExtractAnswersFalseOnlyWhenRefused(base: Store, h: Atom, recursive: bool)
    ensures ExtractOutcome(base, h, recursive).reply == "#f" <==>
      h in base.atoms && (base.readOnly || (!recursive && HasIncoming(base, h)))
    ensures recursive && !base.readOnly ==> ExtractOutcome(base, h, recursive).reply == "#t"
  {
  }

  /** Extraction is idempotent in its reply: after a `#t` the atom is gone,
      so the same command answers `#t` again and changes nothing more. */
  lemma ExtractTwiceAnswersTrue(base: Store, h: Atom, recursive: bool)
    requires ExtractOutcome(base, h, recursive).reply == "#t"
    ensures var s := ExtractOutcome(base, h, recursive).store;
      ExtractOutcome(s, h, recursive) == Outcome("#t", s)
  {
  }

  /** The characters skipped after the type in cog-get-atoms. */
  const TypeTrailer: set<char> := {')', ' ', '\n', '\t'}

  /** The subtype flag of cog-get-atoms, read from the text after the
      type: set unless nothing but `)` and blanks follows, or what
      follows starts `#f`. */
  function SubtypesFlag(cmd: string, pos: nat): (r: bool)
    ensures (forall i :: pos <= i < |cmd| ==> cmd[i] in TypeTrailer) ==> !r
    ensures r ==> exists p :: pos <= p < |cmd| && cmd[p] !in TypeTrailer && !HasPrefixAt(cmd, p, "#f")
  {
    var p := FindFirstNotOf(cmd, TypeTrailer, pos);
    p.Some? && !CompareEq(cmd, p.value, 2, "#f")
  }

  /** The flag is set iff a character other than `)` or a blank follows
      the type, and the text at the first such character is not `#f`. */
  lemma SubtypesFlagIff(cmd: string, pos: nat, p: nat)
    requires pos <= p < |cmd| && cmd[p] !in TypeTrailer
    requires forall i :: pos <= i < p ==> cmd[i] in TypeTrailer
    ensures SubtypesFlag(cmd, pos) <==> !HasPrefixAt(cmd, p, "#f")
  {
  }

  /** The concatenated encodings of `hs`, in order. */
  function EncodeAll(cx: Codec, hs: seq<Atom>, multi: bool): string
  {
    if hs == [] then "" else EncodeAll(cx, hs[..|hs| - 1], multi) + cx.encodeAtom(hs[|hs| - 1], multi)
  }

  /** The children cog-link collects and the cursor it leaves behind. */
  datatype Children = Children(outgoing: seq<Atom>, pos: nat)

  /** The child scan of cog-link between `l` and the end `r` of the text:
      it stops at the end, at a `)` where a child would start, or when
      get_next_expr reports an empty expression; otherwise it decodes the
      reported span and continues one past it. `pos` ends at the right
      edge of the last child. */
  function ScanChildren(cx: Codec, cmd: string, l: nat, r: nat, pos: nat): (c: Children)
    requires cx.ScansWithin() && r <= |cmd|
    decreases r - l
    ensures 2 * |c.outgoing| <= (if l <= r then r - l + 1 else 0)
    ensures c.outgoing == [] ==> c.pos == pos
    ensures c.outgoing != [] ==> l < c.pos <= r
  {
    if l < r && cmd[l] != ')' then
      var sp := cx.nextExpr(cmd, l, r);
      if sp.left == sp.right then Children([], pos)
      else
        var rest := ScanChildren(cx, cmd, sp.right + 1, r, sp.right);
        Children([cx.decodeAtomIn(cmd, sp.left, sp.right)] + rest.outgoing, rest.pos)
    else Children([], pos)
  }

  /** The text at `m` starts a child, `a`, within the range ending at `r`:
      it is not a `)`, get_next_expr reports a non-empty span from there,
      and `a` is the atom decoded from that span. */
  predicate ChildAt(cx: Codec, cmd: string, m: nat, r: nat, a: Atom)
  {
    var sp := cx.nextExpr(cmd, m, r);
    m < r <= |cmd| && cmd[m] != ')' && sp.left < sp.right && a == cx.decodeAtomIn(cmd, sp.left, sp.right)
  }

  /** `a` is decoded from a span get_next_expr reports at some point of the
      range from `l` to `r`. */
  ghost predicate FromSpan(cx: Codec, cmd: string, l: nat, r: nat, a: Atom)
  {
    exists m :: l <= m && ChildAt(cx, cmd, m, r, a)
  }

  /** Every child the scan collects is decoded from a span get_next_expr
      reports at some point of the range. */
  lemma {:induction false} ChildrenComeFromSpans(cx: Codec, cmd: string, l: nat, r: nat, pos: nat)
    requires cx.ScansWithin() && r <= |cmd|
    decreases r - l
    ensures forall i {:trigger ScanChildren(cx, cmd, l, r, pos).outgoing[i]} ::
      0 <= i < |ScanChildren(cx, cmd, l, r, pos).outgoing| ==>
        FromSpan(cx, cmd, l, r, ScanChildren(cx, cmd, l, r, pos).outgoing[i])
  {
    var c := ScanChildren(cx, cmd, l, r, pos);
    if l < r && cmd[l] != ')' {
      var sp := cx.nextExpr(cmd, l, r);
      if sp.left != sp.right {
        var rest := ScanChildren(cx, cmd, sp.right + 1, r, sp.right);
        ChildrenComeFromSpans(cx, cmd, sp.right + 1, r, sp.right);
        assert c.outgoing == [cx.decodeAtomIn(cmd, sp.left, sp.right)] + rest.outgoing;
        assert ChildAt(cx, cmd, l, r, c.outgoing[0]);
        forall i | 1 <= i < |c.outgoing|
          ensures FromSpan(cx, cmd, l, r, c.outgoing[i])
        {
          assert c.outgoing[i] == rest.outgoing[i - 1];
        }
      }
    }
  }

  /** The cursor the scan ends at is the right edge of the span the last
      child was decoded from. */
  lemma {:induction false} ScanEndsAtLastChild(cx: Codec, cmd: string, l: nat, r: nat, pos: nat)
    requires cx.ScansWithin() && r <= |cmd|
    decreases r - l
    ensures var c := ScanChildren(cx, cmd, l, r, pos);
      c.outgoing != [] ==>
        exists m :: l <= m && ChildAt(cx, cmd, m, r, c.outgoing[|c.outgoing| - 1]) && cx.nextExpr(cmd, m, r).right == c.pos
  {
    var c := ScanChildren(cx, cmd, l, r, pos);
    if l < r && cmd[l] != ')' {
      var sp := cx.nextExpr(cmd, l, r);
      if sp.left != sp.right {
        var rest := ScanChildren(cx, cmd, sp.right + 1, r, sp.right);
        ScanEndsAtLastChild(cx, cmd, sp.right + 1, r, sp.right);
        assert c.outgoing == [cx.decodeAtomIn(cmd, sp.left, sp.right)] + rest.outgoing && c.pos == rest.pos;
        if rest.outgoing == [] {
          assert ChildAt(cx, cmd, l, r, c.outgoing[|c.outgoing| - 1]) && sp.right == c.pos;
        } else {
          assert c.outgoing[|c.outgoing| - 1] == rest.outgoing[|rest.outgoing| - 1];
          var m :| sp.right + 1 <= m && ChildAt(cx, cmd, m, r, rest.outgoing[|rest.outgoing| - 1])
                   && cx.nextExpr(cmd, m, r).right == rest.pos;
          assert l <= m && ChildAt(cx, cmd, m, r, c.outgoing[|c.outgoing| - 1]);
        }
      }
    }
  }

  /** cog-set-tv! on the target store: a read-only store refuses the
      interning and is left as it was; otherwise the atom is interned and
      its truth value slot set. */
  function SetTvStore(s: Store, h: Atom, tv: Option<Value>): (r: Store)
    ensures s.readOnly ==> r == s
    ensures !s.readOnly ==> h in r.atoms && GetValue(r, h, TruthKey) == tv
    ensures forall a :: a in r.atoms <==> a in s.atoms || (a == h && !s.readOnly)
    ensures forall a, k :: (a, k) != (h, TruthKey) ==> GetValue(r, a, k) == GetValue(s, a, k)
    ensures r.readOnly == s.readOnly
  {
    var added := AddAtom(s, h);
    match added.handle
    case None => s
    case Some(a) => SetTruthValue(added.store, a, tv)
  }

  /** Interning of an atom and a key, in that order, as the value handlers
      do it. */
  function InternPair(s: Store, atom: Atom, key: Atom): (r: Store)
    requires !s.readOnly
    ensures atom in r.atoms && key in r.atoms && !r.readOnly
    ensures r.values == s.values
    ensures forall a :: a in r.atoms <==> a in s.atoms || a == atom || a == key
  {
    AddAtom(AddAtom(s, atom).store, key).store
  }

  /** cog-update-value! on the target store: the atom and key are interned
      first (a read-only store refuses them); a value that is not a
      FloatValue then stops the command with no other change, and a
      FloatValue is added into the slot at (atom, key). Only the float
      path uses the interned handles, so only it needs a writable store. */
  function UpdateValueStore(en: Engine, s: Store, atom: Atom, key: Atom, v: Value): (r: Store)
    requires v.FloatValue? ==> !s.readOnly
    ensures forall a :: a in r.atoms <==> a in s.atoms || (!s.readOnly && (a == atom || a == key))
    ensures !v.FloatValue? ==> r.values == s.values
    ensures v.FloatValue? ==>
      GetValue(r, atom, key) == Some(en.incrementCount(GetValue(s, atom, key), v.numbers))
    ensures forall a, k :: (a, k) != (atom, key) ==> GetValue(r, a, k) == GetValue(s, a, k)
    ensures r.readOnly == s.readOnly
  {
    var i := AddAtom(AddAtom(s, atom).store, key).store;
    if !v.FloatValue? then i
    else IncrementCount(en, i, atom, key, v.numbers)
  }

  /** The writes decode_slist makes on an atom: each (key, value) pair in
      order, so a later pair for the same key wins. */
  function SetAll(s: Store, h: Atom, pairs: seq<(Atom, Option<Value>)>): (r: Store)
    ensures r.atoms == s.atoms && r.readOnly == s.readOnly
    ensures pairs != [] ==> GetValue(r, h, pairs[|pairs| - 1].0) == pairs[|pairs| - 1].1
    ensures forall k :: (forall i :: 0 <= i < |pairs| ==> pairs[i].0 != k) ==> GetValue(r, h, k) == GetValue(s, h, k)
    ensures forall a, k :: a != h ==> GetValue(r, a, k) == GetValue(s, a, k)
  {
    if pairs == [] then s
    else
      var init := pairs[..|pairs| - 1];
      var last := pairs[|pairs| - 1];
      assert forall i :: 0 <= i < |init| ==> init[i] == pairs[i];
      SetValue(SetAll(s, h, init), h, last.0, last.1)
  }

  /** For every key, the last pair that names it decides its slot, whatever
      earlier pairs wrote there. */
  lemma {:induction false} SetAllLastPairWins(s: Store, h: Atom, pairs: seq<(Atom, Option<Value>)>, i: nat)
    requires i < |pairs|
    requires forall j :: i < j < |pairs| ==> pairs[j].0 != pairs[i].0
    ensures GetValue(SetAll(s, h, pairs), h, pairs[i].0) == pairs[i].1
  {
    if i < |pairs| - 1 {
      var init := pairs[..|pairs| - 1];
      assert init[i] == pairs[i];
      assert forall j :: i < j < |init| ==> init[j] == pairs[j];
      SetAllLastPairWins(s, h, init, i);
      assert pairs[|pairs| - 1].0 != pairs[i].0;
    }
  }
}

=== FILE: interpreter.dfy ===
/** The command interpreter: one object holding the addressing mode, the
    top frame and the base store, with one method per command. The stores
    the interpreter reaches are held in `stores`, keyed by store identity;
    an identity missing from it (a frame the codec has just built) reads
    as an empty writable store. Every store is flat: a frame does not see
    the contents of the frames below it. */
module Interpreter {
  import opened Text
  import opened AtomSpace
  import opened Sexpr
  import opened Frames
  import opened Cache
  import opened Handlers

  // Where the operands of each command end, as the codec reports it.

  /** Just past the first atom. */
  function AtomEnd(cx: Codec, cmd: string): nat
  {
    cx.decodeAtom(cmd, 0).next
  }

  /** Just past the value that follows an atom and a key. */
  function ValueEnd(cx: Codec, cmd: string): nat
  {
    cx.decodeValue(cmd, KeyEnd(cx, cmd) + 1).next
  }

  /** Just past the truth value that follows the atom of cog-set-tv!. */
  function TvEnd(cx: Codec, cmd: string): nat
  {
    cx.decodeValue(cmd, AtomEnd(cx, cmd) + 1).next
  }

  /** Just past the type that follows the atom of cog-incoming-by-type. */
  function IncomingTypeEnd(cx: Codec, cmd: string): nat
  {
    cx.decodeType(cmd, AtomEnd(cx, cmd) + 1).next
  }

  /** The right cursor get_node_name leaves after the name of cog-node. */
  function NodeNameEnd(cx: Codec, cmd: string): nat
  {
    var t := cx.decodeType(cmd, 0);
    cx.nodeName(cmd, t.next + 1, |cmd|, t.value).next
  }

  /** The children of cog-link and the cursor after the last of them. */
  function LinkChildren(cx: Codec, cmd: string): Children
    requires cx.ScansWithin()
  {
    var t := cx.decodeType(cmd, 0);
    ScanChildren(cx, cmd, t.next + 1, |cmd|, t.next)
  }

  /** cog-set-value! on the target store, after the atom and key are
      interned: the atoms inside the value are interned too, and the value
      replaces the slot at (atom, key); a null value clears it. */
  function SetValueStore(cx: Codec, s: Store, atom: Atom, key: Atom, vp: Option<Value>): (r: Store)
    ensures vp.None? ==> GetValue(r, atom, key).None? && r.atoms == s.atoms
    ensures vp.Some? ==> GetValue(r, atom, key) == Some(cx.addAtoms(s, vp.value).1)
    ensures cx.AddsAtomsOnly() ==> r.readOnly == s.readOnly && forall a :: a in s.atoms ==> a in r.atoms
    ensures cx.AddsAtomsOnly() ==>
      forall a, k :: a in s.atoms && (a, k) != (atom, key) ==> GetValue(r, a, k) == GetValue(s, a, k)
  {
    match vp
    case None => SetValue(s, atom, key, None)
    case Some(v) =>
      var added := cx.addAtoms(s, v);
      SetValue(added.0, atom, key, Some(added.1))
  }

  class Commands {
    /** The addressing mode: false is Single, true is Multi. */
    var multiSpace: bool
    /** The top frame, once a frame hierarchy has been defined. */
    var topSpace: Option<SpaceId>
    /** The store every command falls back to. */
    var baseSpace: SpaceId
    /** The contents of every store the interpreter reaches. */
    var stores: map<SpaceId, Store>
    const codec: Codec
    const engine: Engine

    /** The base store is one the interpreter tracks. A top frame is only
        ever set by `define`, which also turns Multi mode on, and nothing
        turns it off again. */
    ghost predicate Valid()
      reads this
    {
      baseSpace in stores && (topSpace.Some? ==> multiSpace)
    }

    /** The contents of store `id`. */
    function Space(id: SpaceId): Store
      reads this
    {
      if id in stores then stores[id] else EmptyStore
    }

    /** Where get_opt_as would resolve at `pos` in the current state. */
    ghost function Resolve(cmd: string, pos: nat): Target
      reads this
      requires CanResolve(multiSpace, cmd, pos)
    {
      ResolveOptSpace(multiSpace, topSpace, baseSpace, codec, cmd, pos)
    }

    /** get_opt_as at `pos` can run and resolves to a writable store. */
    ghost predicate WritableTarget(cmd: string, pos: nat)
      reads this
    {
      CanResolve(multiSpace, cmd, pos) && !Space(Resolve(cmd, pos).space).readOnly
    }

    /** The store cog-get-atoms enumerates. */
    function EnumerationSpace(): (id: SpaceId)
      reads this
      ensures id == baseSpace || (multiSpace && topSpace == Some(id))
      ensures !multiSpace || topSpace.None? ==> id == baseSpace
    {
      if multiSpace && topSpace.Some? then topSpace.value else baseSpace
    }

    /** In a reachable state the mode test in cog-get-atoms is redundant:
        once a top frame is defined it is the store enumerated. */
    lemma EnumerationFollowsTopFrame()
      requires Valid()
      ensures EnumerationSpace() == if topSpace.Some? then topSpace.value else baseSpace
    {
    }

    /** A fresh interpreter starts in Single mode with no frame. */
    constructor (codec: Codec, engine: Engine, stores: map<SpaceId, Store>, base: SpaceId)
      requires base in stores
      ensures Valid()
      ensures !multiSpace && topSpace.None?
      ensures baseSpace == base && this.stores == stores
      ensures this.codec == codec && this.engine == engine
    {
      multiSpace := false;
      topSpace := None;
      baseSpace := base;
      this.stores := stores;
      this.codec := codec;
      this.engine := engine;
    }

    method SetBaseSpace(id: SpaceId)
      requires Valid() && id in stores
      modifies this`baseSpace
      ensures Valid() && baseSpace == id
    {
      baseSpace := id;
    }

    /** add_atom on store `id`. */
    method AddAtomIn(id: SpaceId, h: Atom) returns (handle: Option<Atom>)
      requires Valid()
      modifies this`stores
      ensures Valid()
      ensures handle == AddAtom(old(Space(id)), h).handle
      ensures stores == old(stores)[id := AddAtom(old(Space(id)), h).store]
    {
      var added := AddAtom(Space(id), h);
      stores := stores[id := added.store];
      handle := added.handle;
    }

    /** get_opt_as. The flag assignment in the frame branch only happens
        in Multi mode, so the mode never changes here. */
    method GetOptAs(cmd: string, pos: nat) returns (space: SpaceId, next: nat)
      requires CanResolve(multiSpace, cmd, pos)
      modifies this`multiSpace
      ensures multiSpace == old(multiSpace)
      ensures Target(space, next) == Resolve(cmd, pos)
    {
      if !multiSpace {
        return baseSpace, pos;
      }
      next := FindFirstNotOf(cmd, Whitespace, pos).value;
      if CompareEq(cmd, next, 10, FrameTag) {
        multiSpace := true;
        var frame := codec.decodeFrame(topSpace, cmd, next);
        return frame.value, frame.next;
      }
      return baseSpace, next;
    }

    /** "(" + the encodings of `hs` + ")". */
    method EncodeList(hs: seq<Atom>, multi: bool) returns (reply: string)
      ensures reply == "(" + EncodeAll(codec, hs, multi) + ")"
    {
      reply := "(";
      for i := 0 to |hs|
        invariant reply == "(" + EncodeAll(codec, hs[..i], multi)
      {
        assert hs[..i + 1][..i] == hs[..i];
        reply := reply + codec.encodeAtom(hs[i], multi);
      }
      assert hs[..|hs|] == hs;
      reply := reply + ")";
    }

    /** cog-atomspace: the top frame printed, or `()` without one. */
    method CogAtomspace(cmd: string) returns (reply: string)
      ensures topSpace.None? ==> reply == "()"
      ensures topSpace.Some? ==> reply == engine.describe(topSpace.value, Space(topSpace.value))
    {
      if topSpace.None? {
        return "()";
      }
      return engine.describe(topSpace.value, Space(topSpace.value));
    }

    /** cog-atomspace-clear: empties the base store. */
    method CogAtomspaceClear(cmd: string) returns (reply: string)
      requires Valid()
      modifies this`stores
      ensures Valid() && reply == "#t"
      ensures stores == old(stores)[baseSpace := Clear(old(Space(baseSpace)))]
    {
      stores := stores[baseSpace := Clear(Space(baseSpace))];
      return "#t";
    }

    /** cog-execute-cache!, on the base store. */
    method CogExecuteCache(cmd: string, now: int) returns (reply: string)
      requires Valid() && !Space(baseSpace).readOnly
      modifies this`stores
      ensures Valid()
      ensures var o := ExecuteCache(codec, engine, old(Space(baseSpace)), cmd, now);
        reply == o.reply && stores == old(stores)[baseSpace := o.store]
    {
      var s := Space(baseSpace);
      var pos := 0;
      var q := codec.decodeAtom(cmd, pos);
      pos := q.next;
      var query := AddAtom(s, q.value);
      s := query.store;
      pos := pos + 1;
      var k := codec.decodeAtom(cmd, pos);
      pos := k.next;
      var key := AddAtom(s, k.value);
      s := key.store;
      ghost var args := ParseCacheArgs(codec, cmd);
      assert query.handle == Some(args.query) && key.handle == Some(args.key);

      var force := false;
      var paren := FindFirstOf(cmd, {'('}, pos);
      if paren.Some? {
        pos := paren.value;
        var m := codec.decodeAtom(cmd, pos);
        pos := m.next;
        assert DecodeMeta(codec, cmd) == Some(m);
        var meta := AddAtom(s, m.value);
        s := SetValue(meta.store, query.handle.value, meta.handle.value, Some(TimeStamp(now)));
        if Find(cmd, "#t", pos).Some? {
          force := true;
        }
      }
      assert force == args.force;
      assert s == Stamped(codec, old(Space(baseSpace)), cmd, now);
      ghost var o := ExecuteCache(codec, engine, old(Space(baseSpace)), cmd, now);
      var rslt := GetValue(s, query.handle.value, key.handle.value);
      if rslt.Some? && !force {
        assert o == Outcome(codec.encodeValue(rslt), s);
        stores := stores[baseSpace := s];
        return codec.encodeValue(rslt);
      }

      var r: Option<Value>;
      if engine.isExecutable(query.handle.value) {
        r := engine.execute(query.handle.value, s);
      } else if engine.isEvaluatable(query.handle.value) {
        r := engine.evaluate(query.handle.value, s);
      } else {
        assert o == Outcome("#f", s);
        stores := stores[baseSpace := s];
        return "#f";
      }
      assert o == Outcome(codec.encodeValue(r), SetValue(s, query.handle.value, key.handle.value, r));
      stores := stores[baseSpace := SetValue(s, query.handle.value, key.handle.value, r)];
      return codec.encodeValue(r);
    }

    /** cog-extract!, on the base store. */
    method CogExtract(cmd: string) returns (reply: string)
      requires Valid()
      modifies this`stores
      ensures Valid()
      ensures var o := ExtractOutcome(old(Space(baseSpace)), codec.decodeAtom(cmd, 0).value, false);
        reply == o.reply && stores == old(stores)[baseSpace := o.store]
    {
      var h := GetAtom(Space(baseSpace), codec.decodeAtom(cmd, 0).value);
      if h.None? {
        return "#t";
      }
      var e := ExtractAtom(Space(baseSpace), h.value, false);
      stores := stores[baseSpace := e.store];
      if e.ok {
        return "#t";
      }
      return "#f";
    }

    /** cog-extract-recursive!, on the base store. */
    method CogExtractRecursive(cmd: string) returns (reply: string)
      requires Valid()
      modifies this`stores
      ensures Valid()
      ensures var o := ExtractOutcome(old(Space(baseSpace)), codec.decodeAtom(cmd, 0).value, true);
        reply == o.reply && stores == old(stores)[baseSpace := o.store]
    {
      var h := GetAtom(Space(baseSpace), codec.decodeAtom(cmd, 0).value);
      if h.None? {
        return "#t";
      }
      var e := ExtractAtom(Space(baseSpace), h.value, true);
      stores := stores[baseSpace := e.store];
      if e.ok {
        return "#t";
      }
      return "#f";
    }

    /** cog-get-atoms: the atoms of the decoded type, with subtypes as the
        text after the type says, from the top frame in Multi mode when
        there is one and from the base store otherwise. */
    method CogGetAtoms(cmd: string) returns (reply: string)
      ensures var t := codec.decodeType(cmd, 0);
        var hs := HandlesByType(Space(EnumerationSpace()), t.value, SubtypesFlag(cmd, t.next), engine.isA);
        reply == "(" + EncodeAll(codec, hs, multiSpace) + ")"
    {
      var pos := 0;
      var t := codec.decodeType(cmd, pos);
      pos := t.next;

      var p := FindFirstNotOf(cmd, TypeTrailer, pos);
      var getSubtypes := false;
      if p.Some? && !CompareEq(cmd, p.value, 2, "#f") {
        getSubtypes := true;
      }

      var hset: seq<Atom>;
      if multiSpace && topSpace.Some? {
        hset := HandlesByType(Space(topSpace.value), t.value, getSubtypes, engine.isA);
      } else {
        hset := HandlesByType(Space(baseSpace), t.value, getSubtypes, engine.isA);
      }
      reply := EncodeList(hset, multiSpace);
    }

    /** cog-incoming-by-type: the atom is interned into the target store,
        and its incoming links of the decoded type are listed. */
    method CogIncomingByType(cmd: string) returns (reply: string)
      requires Valid() && WritableTarget(cmd, IncomingTypeEnd(codec, cmd))
      modifies this`multiSpace, this`stores
      ensures Valid() && multiSpace == ModeAfter(IncomingByTypeCmd, old(multiSpace))
      ensures var sp := old(Resolve(cmd, IncomingTypeEnd(codec, cmd))).space;
        var h := codec.decodeAtom(cmd, 0).value;
        var t := codec.decodeType(cmd, AtomEnd(codec, cmd) + 1).value;
        var s := AddAtom(old(Space(sp)), h).store;
        && stores == old(stores)[sp := s]
        && reply == "(" + EncodeAll(codec, IncomingSetByType(s, h, t), false) + ")"
    {
      var pos := 0;
      var h := codec.decodeAtom(cmd, pos);
      pos := h.next;
      pos := pos + 1;
      var t := codec.decodeType(cmd, pos);
      pos := t.next;

      assert pos == IncomingTypeEnd(codec, cmd);
      var sp, _ := GetOptAs(cmd, pos);
      assert Space(sp) == old(Space(sp)) && t.value == codec.decodeType(cmd, AtomEnd(codec, cmd) + 1).value;
      var ha := AddAtom(Space(sp), h.value);
      assert ha.handle == Some(h.value);
      stores := stores[sp := ha.store];
      reply := EncodeList(IncomingSetByType(ha.store, h.value, t.value), false);
    }

    /** cog-incoming-set: the atom is interned into the target store, and
        its incoming links are listed. */
    method CogIncomingSet(cmd: string) returns (reply: string)
      requires Valid() && WritableTarget(cmd, AtomEnd(codec, cmd))
      modifies this`multiSpace, this`stores
      ensures Valid() && multiSpace == ModeAfter(IncomingSetCmd, old(multiSpace))
      ensures var sp := old(Resolve(cmd, AtomEnd(codec, cmd))).space;
        var h := codec.decodeAtom(cmd, 0).value;
        var s := AddAtom(old(Space(sp)), h).store;
        && stores == old(stores)[sp := s]
        && reply == "(" + EncodeAll(codec, IncomingSet(s, h), false) + ")"
    {
      var pos := 0;
      var h := codec.decodeAtom(cmd, pos);
      pos := h.next;
      assert pos == AtomEnd(codec, cmd);
      var sp, _ := GetOptAs(cmd, pos);
      var ha := AddAtom(Space(sp), h.value);
      stores := stores[sp := ha.store];
      reply := EncodeList(IncomingSet(ha.store, ha.handle.value), false);
    }

    /** cog-node: a lookup, not an insertion; `()` when the target store
        lacks the node. */
    method CogNode(cmd: string) returns (reply: string)
      requires CanResolve(multiSpace, cmd, NodeNameEnd(codec, cmd))
      modifies this`multiSpace
      ensures multiSpace == ModeAfter(NodeCmd, old(multiSpace))
      ensures var sp := old(Resolve(cmd, NodeNameEnd(codec, cmd))).space;
        var t := codec.decodeType(cmd, 0);
        var n := Node(t.value, codec.nodeName(cmd, t.next + 1, |cmd|, t.value).value);
        reply == if n in Space(sp).atoms then codec.encodeAtom(n, multiSpace) else "()"
    {
      var pos := 0;
      var t := codec.decodeType(cmd, pos);
      pos := t.next;

      var l := pos + 1;
      var r := |cmd|;
      var name := codec.nodeName(cmd, l, r, t.value);
      r := name.next;
      var sp, _ := GetOptAs(cmd, r);
      var h := GetAtom(Space(sp), Node(t.value, name.value));

      if h.None? {
        return "()";
      }
      return codec.encodeAtom(h.value, multiSpace);
    }

    /** The child loop of cog-link: from `l` to the end of the text, each
        expression get_next_expr reports is decoded and appended, and
        `pos` follows the right edge of the last one. */
    method CollectChildren(cmd: string, l: nat, pos: nat) returns (outgoing: seq<Atom>, last: nat)
      requires codec.ScansWithin()
      ensures Children(outgoing, last) == ScanChildren(codec, cmd, l, |cmd|, pos)
    {
      outgoing := [];
      last := pos;
      var l := l;
      var r := |cmd|;
      ghost var whole := ScanChildren(codec, cmd, l, r, pos);
      while l < r && cmd[l] != ')'
        invariant r == |cmd|
        invariant whole.outgoing == outgoing + ScanChildren(codec, cmd, l, r, last).outgoing
        invariant whole.pos == ScanChildren(codec, cmd, l, r, last).pos
        decreases r - l
      {
        var span := codec.nextExpr(cmd, l, r);
        if span.left == span.right {
          break;
        }
        outgoing := outgoing + [codec.decodeAtomIn(cmd, span.left, span.right)];
        l := span.right + 1;
        last := span.right;
      }
    }

    /** cog-link: the children are scanned one expression at a time, then
        the link is looked up (not inserted); `()` when the target store
        lacks it. */
    method CogLink(cmd: string) returns (reply: string)
      requires codec.ScansWithin()
      requires CanResolve(multiSpace, cmd, LinkChildren(codec, cmd).pos)
      modifies this`multiSpace
      ensures multiSpace == ModeAfter(LinkCmd, old(multiSpace))
      ensures var sp := old(Resolve(cmd, LinkChildren(codec, cmd).pos)).space;
        var a := Link(codec.decodeType(cmd, 0).value, LinkChildren(codec, cmd).outgoing);
        reply == if a in Space(sp).atoms then codec.encodeAtom(a, multiSpace) else "()"
    {
      var pos := 0;
      var t := codec.decodeType(cmd, pos);
      pos := t.next;

      var outgoing;
      outgoing, pos := CollectChildren(cmd, pos + 1, pos);
      var sp, _ := GetOptAs(cmd, pos);
      var h := GetAtom(Space(sp), Link(t.value, outgoing));

      if h.None? {
        return "()";
      }
      return codec.encodeAtom(h.value, multiSpace);
    }

    /** cog-set-value!: always replies `()`. */
    method CogSetValue(cmd: string) returns (reply: string)
      requires Valid() && WritableTarget(cmd, ValueEnd(codec, cmd))
      modifies this`multiSpace, this`stores
      ensures Valid() && multiSpace == ModeAfter(SetValueCmd, old(multiSpace))
      ensures reply == "()"
      ensures var sp := old(Resolve(cmd, ValueEnd(codec, cmd))).space;
        var atom := codec.decodeAtom(cmd, 0).value;
        var key := codec.decodeAtom(cmd, AtomEnd(codec, cmd) + 1).value;
        var vp := codec.decodeValue(cmd, KeyEnd(codec, cmd) + 1).value;
        stores == old(stores)[sp := SetValueStore(codec, InternPair(old(Space(sp)), atom, key), atom, key, vp)]
    {
      var pos := 0;
      var atom := codec.decodeAtom(cmd, pos);
      pos := atom.next;
      pos := pos + 1;
      var key := codec.decodeAtom(cmd, pos);
      pos := key.next;
      pos := pos + 1;
      var vp := codec.decodeValue(cmd, pos);
      pos := vp.next;

      assert pos == ValueEnd(codec, cmd);
      assert key.value == codec.decodeAtom(cmd, AtomEnd(codec, cmd) + 1).value;
      assert vp.value == codec.decodeValue(cmd, KeyEnd(codec, cmd) + 1).value;
      var sp, _ := GetOptAs(cmd, pos);
      var s := Space(sp);
      assert s == old(Space(sp));
      var a := AddAtom(s, atom.value);
      s := a.store;
      var k := AddAtom(s, key.value);
      s := k.store;
      assert a.handle == Some(atom.value) && k.handle == Some(key.value);
      assert s == InternPair(old(Space(sp)), atom.value, key.value);
      var v := vp.value;
      ghost var target := SetValueStore(codec, s, atom.value, key.value, v);
      if v.Some? {
        var added := codec.addAtoms(s, v.value);
        s := added.0;
        v := Some(added.1);
      }
      assert SetValue(s, a.handle.value, k.handle.value, v) == target;
      stores := stores[sp := SetValue(s, a.handle.value, k.handle.value, v)];
      assert stores == old(stores)[sp := target];
      return "()";
    }

    /** cog-set-values!: resolves a store argument (and interns the atom)
        only in Single mode, then applies the decoded key/value list. In
        Multi mode the list lands on the atom as decoded, whose store this
        model does not follow, so no tracked store changes. */
    method CogSetValues(cmd: string) returns (reply: string)
      requires Valid() && (!multiSpace ==> !Space(baseSpace).readOnly)
      modifies this`multiSpace, this`stores
      ensures Valid() && multiSpace == ModeAfter(SetValuesCmd, old(multiSpace))
      ensures reply == "()"
      ensures old(multiSpace) ==> stores == old(stores)
      ensures !old(multiSpace) ==>
        var h := codec.decodeAtom(cmd, 0).value;
        var pairs := codec.decodeSlist(cmd, AtomEnd(codec, cmd) + 1);
        stores == old(stores)[baseSpace := SetAll(AddAtom(old(Space(baseSpace)), h).store, h, pairs)]
    {
      var pos := 0;
      var h := codec.decodeAtom(cmd, pos);
      pos := h.next;
      pos := pos + 1;

      if !multiSpace {
        var sp, _ := GetOptAs(cmd, pos);
        var ha := AddAtomIn(sp, h.value);
        var pairs := codec.decodeSlist(cmd, pos);
        stores := stores[sp := SetAll(Space(sp), ha.value, pairs)];
      }
      return "()";
    }

    /** cog-set-tv!: a read-only target store short-circuits to `()` with
        nothing written. */
    method CogSetTv(cmd: string) returns (reply: string)
      requires Valid() && CanResolve(multiSpace, cmd, TvEnd(codec, cmd))
      modifies this`multiSpace, this`stores
      ensures Valid() && multiSpace == ModeAfter(SetTvCmd, old(multiSpace))
      ensures reply == "()"
      ensures var sp := old(Resolve(cmd, TvEnd(codec, cmd))).space;
        var h := codec.decodeAtom(cmd, 0).value;
        var tv := codec.decodeValue(cmd, AtomEnd(codec, cmd) + 1).value;
        && (old(Space(sp)).readOnly ==> stores == old(stores))
        && (!old(Space(sp)).readOnly ==> stores == old(stores)[sp := SetTvStore(old(Space(sp)), h, tv)])
    {
      var pos := 0;
      var h := codec.decodeAtom(cmd, pos);
      pos := h.next;
      pos := pos + 1;
      var tv := codec.decodeValue(cmd, pos);
      pos := tv.next;

      assert pos == TvEnd(codec, cmd);
      var sp, _ := GetOptAs(cmd, pos);
      var ha := AddAtomIn(sp, h.value);
      if ha.None? {
        assert stores == old(stores);
        return "()";
      }
      stores := stores[sp := SetTruthValue(Space(sp), ha.value, tv.value)];
      return "()";
    }

    /** cog-update-value!: interns the atom and key, then adds a FloatValue
        into the slot at (atom, key); any other value stops it there. The
        value is dereferenced unconditionally, so it must decode; the
        interned handles only on the float path. */
    method CogUpdateValue(cmd: string) returns (reply: string)
      requires Valid() && CanResolve(multiSpace, cmd, ValueEnd(codec, cmd))
      requires codec.decodeValue(cmd, KeyEnd(codec, cmd) + 1).value.Some?
      requires codec.decodeValue(cmd, KeyEnd(codec, cmd) + 1).value.value.FloatValue? ==>
        WritableTarget(cmd, ValueEnd(codec, cmd))
      modifies this`multiSpace, this`stores
      ensures Valid() && multiSpace == ModeAfter(UpdateValueCmd, old(multiSpace))
      ensures reply == "()"
      ensures var sp := old(Resolve(cmd, ValueEnd(codec, cmd))).space;
        var atom := codec.decodeAtom(cmd, 0).value;
        var key := codec.decodeAtom(cmd, AtomEnd(codec, cmd) + 1).value;
        var v := codec.decodeValue(cmd, KeyEnd(codec, cmd) + 1).value.value;
        stores == old(stores)[sp := UpdateValueStore(engine, old(Space(sp)), atom, key, v)]
    {
      var pos := 0;
      var atom := codec.decodeAtom(cmd, pos);
      pos := atom.next;
      pos := pos + 1;
      var key := codec.decodeAtom(cmd, pos);
      pos := key.next;
      pos := pos + 1;
      var vp := codec.decodeValue(cmd, pos);
      pos := vp.next;

      assert pos == ValueEnd(codec, cmd);
      var sp, _ := GetOptAs(cmd, pos);
      assert sp == old(Resolve(cmd, ValueEnd(codec, cmd))).space && Space(sp) == old(Space(sp));
      ghost var target := UpdateValueStore(engine, Space(sp), atom.value, key.value, vp.value.value);
      var s := Space(sp);
      var a := AddAtom(s, atom.value);
      s := a.store;
      var k := AddAtom(s, key.value);
      s := k.store;

      if !vp.value.value.FloatValue? {
        assert s == target;
        stores := stores[sp := s];
        return "()";
      }
      s := IncrementCount(engine, s, a.handle.value, k.handle.value, vp.value.value.numbers);
      assert s == target;
      stores := stores[sp := s];
      return "()";
    }

    /** cog-value: interns the atom and key into the target store and
        replies with the encoding of the value at (atom, key), null
        included. */
    method CogValue(cmd: string) returns (reply: string)
      requires Valid() && WritableTarget(cmd, KeyEnd(codec, cmd))
      modifies this`multiSpace, this`stores
      ensures Valid() && multiSpace == ModeAfter(ValueCmd, old(multiSpace))
      ensures var sp := old(Resolve(cmd, KeyEnd(codec, cmd))).space;
        var atom := codec.decodeAtom(cmd, 0).value;
        var key := codec.decodeAtom(cmd, AtomEnd(codec, cmd) + 1).value;
        var s := InternPair(old(Space(sp)), atom, key);
        && stores == old(stores)[sp := s]
        && reply == codec.encodeValue(GetValue(old(Space(sp)), atom, key))
    {
      var pos := 0;
      var atom := codec.decodeAtom(cmd, pos);
      pos := atom.next;
      pos := pos + 1;
      var key := codec.decodeAtom(cmd, pos);
      pos := key.next;

      assert pos == KeyEnd(codec, cmd);
      var sp, _ := GetOptAs(cmd, pos);
      var s := Space(sp);
      var a := AddAtom(s, atom.value);
      s := a.store;
      var k := AddAtom(s, key.value);
      s := k.store;
      stores := stores[sp := s];
      return codec.encodeValue(GetValue(s, a.handle.value, k.handle.value));
    }

    /** cog-define: Multi mode from now on, and the frame described after
        the symbol, rooted at the base store, becomes the top frame. */
    method CogDefine(cmd: string) returns (reply: string)
      modifies this`multiSpace, this`topSpace
      ensures multiSpace == ModeAfter(DefineCmd, old(multiSpace))
      ensures topSpace == Some(codec.decodeFrame(Some(baseSpace), cmd, DefineCursor(cmd)).value)
      ensures reply == "()"
    {
      multiSpace := true;

      var start := FindFirstNotOf(cmd, Whitespace, 0);
      var epos := if start.None? then None else FindFirstOf(cmd, Whitespace, start.value);
      var pos := if epos.None? then 0 else epos.value + 1;

      var frame := codec.decodeFrame(Some(baseSpace), cmd, pos);
      topSpace := Some(frame.value);
      return "()";
    }

    /** ping: a fixed reply and no effect. */
    method CogPing(cmd: string) returns (reply: string)
      ensures reply == "()"
    {
      return "()";
    }
  }
}

=== FILE: sexpr.dfy ===
/** The S-expression codec the handlers call. Its grammar is not part of
    this model: each decoder is an opaque function of the text and the
    cursor, returning what it decoded and where the cursor stands after it,
    and each encoder an opaque function to text. The frame map that
    memoises frame decoding lives inside `decodeFrame`. */
module Sexpr {
  import opened Text
  import opened AtomSpace

  /** A decoded item and the cursor just past it. */
  datatype Decoded<T> = Decoded(value: T, next: nat)

  /** The bounds get_next_expr reports for the next expression. */
  datatype Span = Span(left: nat, right: nat)

  datatype Codec = Codec(
    decodeAtom: (string, nat) -> Decoded<Atom>,
    decodeAtomIn: (string, nat, nat) -> Atom,
    decodeType: (string, nat) -> Decoded<TypeName>,
    decodeValue: (string, nat) -> Decoded<Option<Value>>,
    decodeFrame: (Option<SpaceId>, string, nat) -> Decoded<SpaceId>,
    decodeSlist: (string, nat) -> seq<(Atom, Option<Value>)>,
    nodeName: (string, nat, nat, TypeName) -> Decoded<string>,
    nextExpr: (string, nat, nat) -> Span,
    addAtoms: (Store, Value) -> (Store, Value),
    encodeAtom: (Atom, bool) -> string,
    encodeValue: Option<Value> -> string)
  {
    /** get_next_expr, asked for the next expression between `l` and `r`,
        reports bounds inside that range. */
    ghost predicate ScansWithin()
    {
      forall s: string, l: nat, r: nat :: l <= r ==>
        l <= nextExpr(s, l, r).left <= nextExpr(s, l, r).right <= r
    }

    /** add_atoms interns the atoms a value holds and changes nothing that
        was already in the store. */
    ghost predicate AddsAtomsOnly()
    {
      forall s: Store, v: Value :: Extends(s, addAtoms(s, v).0)
    }
  }
}

=== FILE: text.dfy ===
/** Cursor scans over command text, as the interpreter uses them from
    std::string: find_first_not_of, find_first_of, find and compare.
    A cursor result of `None` stands for std::string::npos. */
module Text {

  datatype Option<T> = None | Some(value: T)

  /** The whitespace set " \n\t" the interpreter skips. */
  const Whitespace: set<char> := {' ', '\n', '\t'}

  /** True when `t` occurs in `s` starting at index `p`. */
  predicate HasPrefixAt(s: string, p: nat, t: string)
  {
    p + |t| <= |s| && s[p..p + |t|] == t
  }

  /** find_first_not_of(chars, pos): the first index at or after `pos`
      whose character is not in `chars`. */
  function FindFirstNotOf(s: string, chars: set<char>, pos: nat): (r: Option<nat>)
    decreases |s| - pos
    ensures r.Some? ==> pos <= r.value < |s| && s[r.value] !in chars
    ensures r.Some? ==> forall i :: pos <= i < r.value ==> s[i] in chars
    ensures r.None? <==> forall i :: pos <= i < |s| ==> s[i] in chars
  {
    if pos >= |s| then None
    else if s[pos] !in chars then Some(pos)
    else FindFirstNotOf(s, chars, pos + 1)
  }

  /** find_first_of(chars, pos): the first index at or after `pos` whose
      character is in `chars`. */
  function FindFirstOf(s: string, chars: set<char>, pos: nat): (r: Option<nat>)
    decreases |s| - pos
    ensures r.Some? ==> pos <= r.value < |s| && s[r.value] in chars
    ensures r.Some? ==> forall i :: pos <= i < r.value ==> s[i] !in chars
    ensures r.None? <==> forall i :: pos <= i < |s| ==> s[i] !in chars
  {
    if pos >= |s| then None
    else if s[pos] in chars then Some(pos)
    else FindFirstOf(s, chars, pos + 1)
  }

  /** find(t, pos): the first index at or after `pos` where `t` occurs. */
  function Find(s: string, t: string, pos: nat): (r: Option<nat>)
    decreases |s| - pos
    ensures r.Some? ==> pos <= r.value && HasPrefixAt(s, r.value, t)
    ensures r.Some? ==> forall i :: pos <= i < r.value ==> !HasPrefixAt(s, i, t)
    ensures r.None? <==> forall i :: pos <= i <= |s| ==> !HasPrefixAt(s, i, t)
  {
    if pos > |s| then None
    else if HasPrefixAt(s, pos, t) then Some(pos)
    else Find(s, t, pos + 1)
  }

  /** compare(pos, n, t) == 0: the substring of at most `n` characters
      starting at `pos` equals `t`. The library throws when `pos` is past
      the end, so that is excluded. */
  function CompareEq(s: string, pos: nat, n: nat, t: string): (r: bool)
    requires pos <= |s|
    ensures n == |t| ==> (r <==> HasPrefixAt(s, pos, t))
  {
    var m := if n <= |s| - pos then n else |s| - pos;
    s[pos..pos + m] == t
  }
}
